=== FILE: README.md ===
# ATS resume PDF export: the fallback line classifier

This project models `markdown_to_ats_pdf` in `utils/pdf_generator.py`, the function
that turns the tailored resume (a markdown file) into PDF bytes for download.

- The primary path converts the markdown to HTML and renders it with wkhtmltopdf.
- When anything in it raises, the function falls back to a basic layout engine.
  The engine gets a *story*: a list of paragraphs and spacers that the function
  builds itself, one line of the file at a time.
- When the fallback raises too, the function returns `None`.

The only logic the repository writes itself is the fallback's line classifier.
It is modelled exactly. Each line is stripped of surrounding whitespace and then
tested in a fixed order:

| stripped line starts with | contribution |
|---|---|
| `# ` | `Heading1` paragraph holding the line minus its first 2 characters |
| `## ` | `Heading2` paragraph holding the line minus its first 3 characters |
| `### ` | `Heading3` paragraph holding the line minus its first 4 characters |
| anything else, non-empty | `Normal` paragraph holding the whole stripped line |
| (line is blank) | no paragraph |

In every case one spacer follows. The code recognises no other markup. Bullets
(`- `, `* `), numbered items, emphasis markers and deeper headings (`####`) all
stay verbatim in a `Normal` paragraph.

Modules:

- `Types` (`types.dfy`): `Option` and the PDF bytes.
- `Text` (`text.dfy`): Python's `str.strip()` and `str.startswith`.
- `LineReader` (`line_reader.dfy`): the file opened in text mode and iterated with
  `for line in f`. Universal newlines turn `\r\n` and `\r` into `\n`. Each line keeps
  its terminating `\n`.
- `LineClassifier` (`story.dfy`):
  - `ClassifyText` and `ClassifyLine` compute one line's contribution;
  - `Story` is the whole story;
  - `BuildStory` is the loop as written, appending to a list;
  - a reference grammar of heading lines (`IsHeading`);
  - `Unparse`, which reads a story back into lines.
- `PdfGenerator` (`pdf_generator.dfy`): the primary → fallback → `None` selection.
  Three things are parameters: the file's decoded text before newline translation
  (`None` when it cannot be opened or decoded), the primary renderer `convert`, and the
  layout engine `build`. Both paths receive the newline-translated text, as `f.read()`
  and `for line in f` return it.

The classifier recognises exactly the four cases above. It has no bullet style, no
numbered items and no emphasis stripping, and it uses four paragraph styles. A line
`- Built X` therefore becomes `Para(Normal, "- Built X")`, marker kept (lemma
`LineClassifier.UnmarkedIsNormal`).

## Model

| member | source | states |
|---|---|---|
| `Text.Strip` | utils/pdf_generator.py:142 | the stripped line is never longer than the line it came from |
| `Text.StripSpec` | utils/pdf_generator.py:142 | `strip` keeps the stretch from the first to the last non-space; only whitespace is dropped before and after it; the result is empty exactly when the line is all whitespace |
| `Text.StripUnique` | utils/pdf_generator.py:142 | for any split of a line into whitespace, a stripped text and whitespace, `strip` returns that text, so the result does not depend on how the padding is laid out |
| `Text.StripIdempotent` | utils/pdf_generator.py:142 | stripping an already stripped line changes nothing |
| `Text.StripIgnoresPadding` | utils/pdf_generator.py:141-142 | whitespace added around a line does not change the stripped line; a line's trailing `\n` does not affect its classification |
| `LineReader.Translate` | utils/pdf_generator.py:140 | text-mode reading leaves no `\r` in the text; it never lengthens the text; a text without `\r` reads unchanged |
| `LineReader.TranslateSpec` | utils/pdf_generator.py:140 | the translated text has as many `\n` as the raw text has line endings (`\n`, `\r\n`, lone `\r`); all other characters are kept, in order; it is empty exactly when the raw text is, and ends in `\n` exactly when the raw text ends in `\r` or `\n` |
| `LineReader.TranslateAppend` | utils/pdf_generator.py:140 | translation is local: a text cut anywhere except between the two characters of a `\r\n` translates piece by piece, so each line ending is replaced where it stands |
| `LineReader.TranslateUnits` | utils/pdf_generator.py:140 | `\r\n` and a lone `\r` each become one `\n`; every other character is kept; with `TranslateAppend` this determines the translation of every text |
| `LineReader.TranslateBreaks` | utils/pdf_generator.py:140 | the translated text has as many `\n` as the raw text has line endings (`\n`, `\r\n` or a lone `\r`) |
| `LineReader.TranslateKeeps` | utils/pdf_generator.py:140 | translation changes nothing but line endings: without them, the raw and translated texts are equal |
| `LineReader.TranslateEnd` | utils/pdf_generator.py:140 | the translated text is empty exactly when the raw text is; it ends in `\n` exactly when the raw text ends in `\r` or `\n` |
| `LineReader.SplitLines` | utils/pdf_generator.py:141 | iterating the file yields non-empty lines that concatenate back to the file's text; every line but the last ends in its `\n`, and no line has a `\n` anywhere else |
| `LineReader.ReadLines` | utils/pdf_generator.py:140-141 | the lines the loop sees rebuild the newline-translated text, are split only after `\n`, and contain no `\r` |
| `LineReader.SplitLinesUnique` | utils/pdf_generator.py:141 | any cut of the text into such lines is the one file iteration produces |
| `LineReader.LineCount` | utils/pdf_generator.py:141 | the loop runs once per `\n` in the newline-translated text, plus once for a final line without a `\n` |
| `LineReader.RawLineCount` | utils/pdf_generator.py:140-141 | counted on the raw file: the loop runs once per line ending (`\n`, `\r\n` or a lone `\r`), plus once for a final line without one |
| `LineClassifier.ClassifyText` | utils/pdf_generator.py:143-151 | a stripped line contributes one or two elements; the last is always the spacer; there is a paragraph before it exactly when the line is non-empty |
| `LineClassifier.ClassifyLine` | utils/pdf_generator.py:142-151 | a raw line contributes one or two elements ending in the spacer; it has a paragraph exactly when the line is not all whitespace |
| `LineClassifier.Story` | utils/pdf_generator.py:141-151 | definition, no contract of its own: the story of a list of lines is each line's contribution, concatenated in order; the lemmas below state its properties |
| `LineClassifier.BuildStory` | utils/pdf_generator.py:137-151 | the loop that appends paragraphs and spacers to a list builds exactly the story of the file's lines, each line's contribution in input order |
| `LineClassifier.HeadingsExclusive` | utils/pdf_generator.py:143-148 | a line has at most one heading level and one heading text: the `#`, `##` and `###` markers never both match |
| `LineClassifier.HeadingIff` | utils/pdf_generator.py:143-148 | a stripped line gives a level-`n` heading with text `title` if and only if it is `n` `#`s, one space, and `title`, for `n` = 1, 2, 3; the heading text is the line without its first `n + 1` characters |
| `LineClassifier.NormalIff` | utils/pdf_generator.py:143-150 | a stripped line gives a Normal paragraph holding the whole line if and only if it is non-empty and starts with none of `# `, `## `, `### ` |
| `LineClassifier.UnmarkedIsNormal` | utils/pdf_generator.py:149-150 | a line not starting with `#`, bullets and numbered items included, is a Normal paragraph whose text is the stripped line, marker kept |
| `LineClassifier.DeepHashesAreNormal` | utils/pdf_generator.py:143-150 | a line starting with `####` matches no heading case and is a Normal paragraph with the full stripped text |
| `LineClassifier.GluedHashesAreNormal` | utils/pdf_generator.py:143-150 | `#` alone, or one to three `#` followed by something other than a space or `#` (`#x`), is a Normal paragraph with the full stripped text |
| `LineClassifier.BlankIff` | utils/pdf_generator.py:142-151 | a line contributes only a spacer, and no paragraph, exactly when it is blank after stripping |
| `LineClassifier.HeadingText` | utils/pdf_generator.py:143-148 | a heading's text is a non-empty proper suffix of the stripped line and does not end in whitespace |
| `LineClassifier.StoryAppend` | utils/pdf_generator.py:141-151 | the story of two consecutive runs of lines is the first run's story followed by the second's |
| `LineClassifier.StoryExtend` | utils/pdf_generator.py:141-151 | reading one more line appends exactly that line's contribution to the story |
| `LineClassifier.StoryAt` | utils/pdf_generator.py:141-151 | order preservation: line `i`'s contribution sits between the story of the lines before it and the story of the lines after it |
| `LineClassifier.StoryCounts` | utils/pdf_generator.py:141-151 | the story has exactly one spacer per line of the file and exactly one paragraph per non-blank line |
| `LineClassifier.Unparse` | utils/pdf_generator.py:141-151 | the specification inverse of the loop that `StoryRoundTrip` uses (no code in the source computes it): reading a story back gives one line per spacer |
| `LineClassifier.StoryRoundTrip` | utils/pdf_generator.py:141-151 | content completeness: putting each heading's marker back in front of its text recovers every stripped line of the file, in order, from the story |
| `LineClassifier.StoryInjective` | utils/pdf_generator.py:141-151 | two files give the same story if and only if their lines agree after stripping |
| `LineClassifier.StoryOfStripped` | utils/pdf_generator.py:142 | classifying already stripped lines gives the same story as classifying the raw lines |
| `PdfGenerator.MarkdownToAtsPdf` | utils/pdf_generator.py:17-161 | an unreadable file gives `None`; a PDF the primary renderer makes from the newline-translated text is returned as is; otherwise the result is the layout engine's output for the classified lines; `None` comes back exactly when the file is unreadable or both renderers fail |
| `PdfGenerator.FallbackStory` | utils/pdf_generator.py:137-151 | definition, no contract of its own: the story the fallback path builds is the story of the lines text-mode iteration yields for the file's raw text |
| `PdfGenerator.FallbackComplete` | utils/pdf_generator.py:137-153 | the story given to the layout engine reads back as every stripped line of the file; it has one spacer per line and one paragraph per non-blank line; the newline-translated text has one line per `\n` plus a final unterminated one (on the raw file, `LineReader.RawLineCount` counts one line per line ending) |

## Left out

- Reading the file is not modelled as I/O. The file is its decoded text before newline translation, or `None` when it cannot be opened or decoded. Both paths see the same newline-translated text.
- `markdown.markdown`, the HTML/CSS template, the pdfkit options and wkhtmltopdf (lines 22-117) are foreign code with styling constants only. Their combined result is the opaque parameter `convert`.
- reportlab is the opaque parameter `build`. This covers its imports, `SimpleDocTemplate`, margins, `getSampleStyleSheet`, `Paragraph` markup parsing, pagination, `doc.build` and the `BytesIO` buffer (lines 126-137, 153-155). A `Paragraph` whose inline markup reportlab rejects raises inside the loop. That failure is folded into `build`: the whole fallback then yields `None`.
- `Paragraph` and `Spacer` are plain constructors. The spacer's size `0.1*inch` and all margins are floating-point layout constants and are not modelled.
- The `print` diagnostics (lines 122, 160) are not modelled.
- `Text.IsSpace` lists the code points CPython's `str.isspace` accepts: `\t`-`\r`, 0x1C-0x1F, space, 0x85, 0xA0, 0x1680, 0x2000-0x200A, 0x2028, 0x2029, 0x202F, 0x205F, 0x3000. The list is fixed. It does not follow later Unicode versions.
- The UTF-8 decoding step is not modelled. Decoding errors are part of the file being `None`.
- `app.py` is not part of this model. It holds only import guards and UI calls.

=== FILE: line_reader.dfy ===
/**
 How the fallback path sees the markdown file: opened in Python's text mode with
 universal newlines, then iterated line by line (`for line in f`).
 */
module LineReader {

  /** Universal-newline decoding: every "\r\n" and every lone "\r" reads as "\n".
      `TranslateSpec` states what this does to line endings and to the other characters. */
  function Translate(s: string): (r: string)
    ensures '\r' !in r
    ensures |r| <= |s|
    ensures '\r' !in s ==> r == s
    decreases |s|
  {
    if s == [] then []
    else if s[0] == '\r' then
      "\n" + Translate(if |s| > 1 && s[1] == '\n' then s[2..] else s[1..])
    else
      [s[0]] + Translate(s[1..])
  }

  /** Each line ending of the raw text becomes exactly one newline, every other character
      is kept in order, and the text ends in a newline exactly when the raw text ends in a
      line-ending character. */
  lemma TranslateSpec(s: string)
    ensures Newlines(Translate(s)) == Breaks(s)
    ensures WithoutBreaks(Translate(s)) == WithoutBreaks(s)
    ensures Translate(s) == [] <==> s == []
    ensures s != [] ==> (Translate(s)[|Translate(s)| - 1] == '\n' <==> s[|s| - 1] in "\r\n")
  {
    TranslateBreaks(s);
    TranslateKeeps(s);
    TranslateEnd(s);
  }

  /** The characters of `s` after the line ending or character it starts with. */
  function Rest(s: string): string
    requires s != []
  {
    if s[0] == '\r' && |s| > 1 && s[1] == '\n' then s[2..] else s[1..]
  }

  lemma {:induction false} TranslateBreaks(s: string)
    ensures Newlines(Translate(s)) == Breaks(s)
    decreases |s|
  {
    if s != [] {
      TranslateBreaks(Rest(s));
      if s[0] == '\r' {
        BreaksOfReturn(s);
        assert Translate(s)[1..] == Translate(Rest(s));
      } else {
        assert Translate(s)[1..] == Translate(Rest(s));
      }
    }
  }

  lemma {:induction false} TranslateKeeps(s: string)
    ensures WithoutBreaks(Translate(s)) == WithoutBreaks(s)
    decreases |s|
  {
    if s != [] {
      TranslateKeeps(Rest(s));
      if s[0] == '\r' {
        WithoutBreaksOfReturn(s);
        assert Translate(s)[1..] == Translate(Rest(s));
      } else {
        assert Translate(s)[1..] == Translate(Rest(s));
      }
    }
  }

  lemma {:induction false} TranslateEnd(s: string)
    ensures Translate(s) == [] <==> s == []
    ensures s != [] ==> (Translate(s)[|Translate(s)| - 1] == '\n' <==> s[|s| - 1] in "\r\n")
    decreases |s|
  {
    if s != [] {
      var rest := Rest(s);
      TranslateEnd(rest);
      assert Translate(s) == [if s[0] == '\r' then '\n' else s[0]] + Translate(rest);
      assert rest != [] ==> rest[|rest| - 1] == s[|s| - 1];
    }
  }

  /** A cut of a text into `a` and `b` that does not split a "\r\n". */
  predicate KeepsPairs(a: string, b: string) {
    a == [] || b == [] || a[|a| - 1] != '\r' || b[0] != '\n'
  }

  /** Translation works line ending by line ending: a text cut anywhere except between the
      two characters of a "\r\n" translates piece by piece. With `TranslateUnits` this fixes
      where every newline lands. */
  lemma {:induction false} TranslateAppend(a: string, b: string)
    requires KeepsPairs(a, b)
    ensures Translate(a + b) == Translate(a) + Translate(b)
    decreases |a|
  {
    if a == [] {
      assert a + b == b;
    } else {
      var u := [if a[0] == '\r' then '\n' else a[0]];
      calc {
        Translate(a + b);
      == { RestAppend(a, b); TranslateStep(a + b); }
        u + Translate(Rest(a) + b);
      == { RestAppend(a, b); TranslateAppend(Rest(a), b); }
        u + (Translate(Rest(a)) + Translate(b));
      ==
        (u + Translate(Rest(a))) + Translate(b);
      == { TranslateStep(a); }
        Translate(a) + Translate(b);
      }
    }
  }

  /** Cutting the first unit off `a + b` cuts it off `a`, when the cut keeps "\r\n" whole. */
  lemma RestAppend(a: string, b: string)
    requires a != [] && KeepsPairs(a, b)
    ensures (a + b)[0] == a[0] && Rest(a + b) == Rest(a) + b
    ensures KeepsPairs(Rest(a), b)
  {
    if b == [] {
      assert a + b == a && Rest(a) + b == Rest(a);
    } else if |a| == 1 {
      assert (a + b)[1..] == b;
    } else if a[0] == '\r' && a[1] == '\n' {
      assert (a + b)[2..] == a[2..] + b;
    } else {
      assert (a + b)[1..] == a[1..] + b;
    }
  }

  /** The translation of each unit: "\r\n" and a lone "\r" give one newline, any other
      character is kept. */
  lemma TranslateUnits(c: char)
    ensures Translate("\r\n") == "\n" && Translate("\r") == "\n"
    ensures c != '\r' ==> Translate([c]) == [c]
  {
    assert "\r\n"[2..] == [];
  }

  /** One step of the translation: the first unit, then the rest. */
  lemma TranslateStep(s: string)
    requires s != []
    ensures Translate(s) == [if s[0] == '\r' then '\n' else s[0]] + Translate(Rest(s))
  {
  }

  /** The lines of a file in order, glued back together. */
  function Join(lines: seq<string>): string
  {
    if lines == [] then [] else lines[0] + Join(lines[1..])
  }

  /** One item produced by iterating a text file: non-empty, with a newline at most as
      its last character. */
  predicate IsLine(l: string) {
    l != [] && forall k :: 0 <= k < |l| - 1 ==> l[k] != '\n'
  }

  predicate EndsWithNewline(l: string) {
    l != [] && l[|l| - 1] == '\n'
  }

  /** A cut of a text into file lines: each piece is a line, and every piece but the
      last is ended by its newline. */
  predicate IsLineSplit(lines: seq<string>) {
    && (forall k :: 0 <= k < |lines| ==> IsLine(lines[k]))
    && (forall k :: 0 <= k < |lines| - 1 ==> EndsWithNewline(lines[k]))
  }

  /** Length of the first line of `s`: up to and including the first newline, or all of
      `s` when it has none. */
  function FirstLineLength(s: string): (n: nat)
    requires s != []
    ensures 1 <= n <= |s|
    ensures forall k :: 0 <= k < n - 1 ==> s[k] != '\n'
    ensures s[n - 1] == '\n' || n == |s|
    decreases |s|
  {
    if s[0] == '\n' || |s| == 1 then 1 else 1 + FirstLineLength(s[1..])
  }

  /** The items `for line in f` yields for a file whose decoded text is `s`. */
  function SplitLines(s: string): (lines: seq<string>)
    ensures Join(lines) == s
    ensures IsLineSplit(lines)
    decreases |s|
  {
    if s == [] then []
    else
      var n := FirstLineLength(s);
      var rest := SplitLines(s[n..]);
      assert s == s[..n] + s[n..];
      assert IsLine(s[..n]);
      assert forall k :: 1 <= k < |[s[..n]] + rest| ==> ([s[..n]] + rest)[k] == rest[k - 1];
      assert rest != [] ==> EndsWithNewline(s[..n]) by {
        if rest != [] {
          assert n < |s|;
        }
      }
      [s[..n]] + rest
  }

  /** The items a Python text-mode file iteration yields for the raw file text `content`. */
  function ReadLines(content: string): (lines: seq<string>)
    ensures Join(lines) == Translate(content)
    ensures IsLineSplit(lines)
    ensures forall k :: 0 <= k < |lines| ==> '\r' !in lines[k]
  {
    var lines := SplitLines(Translate(content));
    JoinContains(lines);
    lines
  }

  /** Every line is part of the joined text. */
  lemma {:induction false} JoinContains(lines: seq<string>)
    ensures forall k, c :: 0 <= k < |lines| && c in lines[k] ==> c in Join(lines)
  {
    if lines != [] {
      JoinContains(lines[1..]);
      forall k, c | 0 <= k < |lines| && c in lines[k] ensures c in Join(lines) {
        if k > 0 {
          assert lines[k] == lines[1..][k - 1];
        }
      }
    }
  }

  /** A first piece with no inner newline, ended by a newline or by the end of `s`, is
      exactly the first line. */
  lemma FirstLineLengthExact(s: string, m: nat)
    requires 1 <= m <= |s|
    requires forall k :: 0 <= k < m - 1 ==> s[k] != '\n'
    requires s[m - 1] == '\n' || m == |s|
    ensures FirstLineLength(s) == m
  {
  }

  /** The cut into lines is the only one: any line split of `s` is `SplitLines(s)`. */
  lemma {:induction false} SplitLinesUnique(lines: seq<string>, s: string)
    requires IsLineSplit(lines) && Join(lines) == s
    ensures lines == SplitLines(s)
    decreases |lines|
  {
    if lines != [] {
      var l := lines[0];
      var rest := lines[1..];
      assert s == l + Join(rest);
      assert IsLineSplit(rest) by {
        forall k | 0 <= k < |rest| ensures IsLine(rest[k]) { assert rest[k] == lines[k + 1]; }
        forall k | 0 <= k < |rest| - 1 ensures EndsWithNewline(rest[k]) { assert rest[k] == lines[k + 1]; }
      }
      assert IsLine(l);
      if rest == [] {
        assert Join(rest) == [];
        assert s == l;
      } else {
        assert EndsWithNewline(l);
        assert s[|l| - 1] == '\n';
        assert Join(rest) == rest[0] + Join(rest[1..]);
        assert |l| < |s|;
      }
      forall k | 0 <= k < |l| - 1 ensures s[k] != '\n' { assert s[k] == l[k]; }
      FirstLineLengthExact(s, |l|);
      var n := FirstLineLength(s);
      assert s[..n] == l;
      assert s[n..] == Join(rest);
      SplitLinesUnique(rest, s[n..]);
    }
  }

  /** Number of newline characters in `s`. */
  function Newlines(s: string): nat
  {
    if s == [] then 0 else (if s[0] == '\n' then 1 else 0) + Newlines(s[1..])
  }

  /** Number of carriage returns in `s` that are not the first half of a "\r\n". */
  function LoneReturns(s: string): nat
  {
    if s == [] then 0
    else (if s[0] == '\r' && (|s| == 1 || s[1] != '\n') then 1 else 0) + LoneReturns(s[1..])
  }

  /** Number of line endings in a raw text: each "\n", "\r\n" and lone "\r" counts once. */
  function Breaks(s: string): nat
  {
    Newlines(s) + LoneReturns(s)
  }

  /** A text starting with a carriage return has one line ending more than what follows
      that ending. */
  lemma BreaksOfReturn(s: string)
    requires s != [] && s[0] == '\r'
    ensures Breaks(s) == 1 + Breaks(Rest(s))
  {
    if |s| > 1 && s[1] == '\n' {
      assert s[1..][1..] == s[2..];
      assert Newlines(s) == 1 + Newlines(s[2..]);
      assert LoneReturns(s) == LoneReturns(s[2..]);
    }
  }

  /** `s` without its line-ending characters. */
  function WithoutBreaks(s: string): string
  {
    if s == [] then [] else (if s[0] in "\r\n" then [] else [s[0]]) + WithoutBreaks(s[1..])
  }

  /** Dropping a leading "\r" or "\r\n" does not change the text without its line endings. */
  lemma WithoutBreaksOfReturn(s: string)
    requires s != [] && s[0] == '\r'
    ensures WithoutBreaks(s) == WithoutBreaks(Rest(s))
  {
    if |s| > 1 && s[1] == '\n' {
      assert s[1..][1..] == s[2..];
    }
  }

  lemma {:induction false} NewlinesAppend(a: string, b: string)
    ensures Newlines(a + b) == Newlines(a) + Newlines(b)
    decreases |a|
  {
    if a != [] {
      assert (a + b)[1..] == a[1..] + b;
      NewlinesAppend(a[1..], b);
    } else {
      assert a + b == b;
    }
  }

  lemma {:induction false} NewlinesOfLine(l: string)
    requires IsLine(l)
    ensures Newlines(l) == if l[|l| - 1] == '\n' then 1 else 0
    decreases |l|
  {
    if |l| > 1 {
      assert IsLine(l[1..]) by {
        forall k | 0 <= k < |l[1..]| - 1 ensures l[1..][k] != '\n' { assert l[1..][k] == l[k + 1]; }
      }
      NewlinesOfLine(l[1..]);
    }
  }

  /** The file has one line per newline, plus one for a last line without a newline. */
  lemma {:induction false} LineCount(s: string)
    ensures |SplitLines(s)| == Newlines(s) + (if s != [] && s[|s| - 1] != '\n' then 1 else 0)
    decreases |s|
  {
    if s != [] {
      var n := FirstLineLength(s);
      assert s == s[..n] + s[n..];
      NewlinesAppend(s[..n], s[n..]);
      assert IsLine(s[..n]);
      NewlinesOfLine(s[..n]);
      LineCount(s[n..]);
      if n < |s| {
        assert s[n..][|s[n..]| - 1] == s[|s| - 1];
      }
    }
  }

  /** Counted on the raw text: one line per line ending ("\n", "\r\n" or a lone "\r"),
      plus one for a last line without one. */
  lemma RawLineCount(content: string)
    ensures |ReadLines(content)| ==
      Breaks(content) + (if content != [] && content[|content| - 1] !in "\r\n" then 1 else 0)
  {
    var t := Translate(content);
    LineCount(t);
    TranslateBreaks(content);
    TranslateEnd(content);
  }
}

=== FILE: pdf_generator.dfy ===
/**
 `markdown_to_ats_pdf`: try the primary HTML renderer on the markdown file; if it
 raises, rebuild the document with the line classifier and the basic layout
 engine; if that raises too, return `None`. The file system and both rendering
 libraries are parameters: `file` is the file's decoded text before newline
 translation (`None` when it cannot be opened or decoded), `convert` is the
 markdown-to-HTML-to-PDF pipeline applied to what `f.read()` returns, that is the
 newline-translated text, and `build` is the layout of a story into a PDF (`None`
 wherever they raise).
 */
module PdfGenerator {
  import opened Types
  import opened Text
  import opened LineReader
  import opened LineClassifier

  /** The story the fallback path builds from the raw text of the file. */
  function FallbackStory(content: string): seq<Elem>
  {
    Story(ReadLines(content))
  }

  /** The result selection of `markdown_to_ats_pdf`. */
  function MarkdownToAtsPdf(file: Option<string>, convert: string -> Option<Bytes>,
                            build: seq<Elem> -> Option<Bytes>): (r: Option<Bytes>)
    // an unreadable file defeats both paths
    ensures file.None? ==> r.None?
    // the primary renderer's PDF wins whenever it produces one
    ensures file.Some? && convert(Translate(file.value)).Some? ==> r == convert(Translate(file.value))
    // otherwise the basic layout of the classified lines decides
    ensures file.Some? && convert(Translate(file.value)).None? ==> r == build(FallbackStory(file.value))
    // no PDF only when both renderers fail
    ensures r.None? <==> (file.None? || (convert(Translate(file.value)).None? && build(FallbackStory(file.value)).None?))
  {
    match file
    case None => None
    case Some(content) =>
      match convert(Translate(content))
      case Some(pdf) => Some(pdf)
      case None => build(FallbackStory(content))
  }

  /** The story handed to the basic layout engine loses nothing but whitespace: it reads
      back as every line of the file, stripped, in order; it has one spacer per line of the
      file and one paragraph per non-blank line; the newline-translated text has one line
      per newline, plus a final unterminated one (`RawLineCount` counts the same lines on
      the raw text). */
  lemma FallbackComplete(content: string)
    ensures Unparse(FallbackStory(content)) == Some(StripAll(ReadLines(content)))
    ensures Spacers(FallbackStory(content)) == |ReadLines(content)|
    ensures Paragraphs(FallbackStory(content)) == NonBlank(ReadLines(content))
    ensures var text := Translate(content);
      |ReadLines(content)| == Newlines(text) + (if text != [] && text[|text| - 1] != '\n' then 1 else 0)
  {
    var lines := ReadLines(content);
    assert Unparse(Story(lines)) == Some(StripAll(lines)) by {
      StoryRoundTrip(lines);
    }
    assert Spacers(Story(lines)) == |lines| && Paragraphs(Story(lines)) == NonBlank(lines) by {
      StoryCounts(lines);
    }
    assert var text := Translate(content);
      |lines| == Newlines(text) + (if text != [] && text[|text| - 1] != '\n' then 1 else 0) by {
      LineCount(Translate(content));
    }
  }
}

=== FILE: story.dfy ===
/**
 The fallback renderer's line classifier: every line of the markdown file is
 stripped, classified by its leading `#` marker, and turned into at most one
 paragraph followed by exactly one spacer. The resulting list of flowables is
 the "story" handed to the layout engine.
 */
module LineClassifier {
  import opened Types
  import opened Text

  /** The stylesheet entries the fallback uses. */
  datatype Style = Heading1 | Heading2 | Heading3 | Normal

  /** A flowable of the story: a styled paragraph, or the fixed vertical spacer. */
  datatype Elem = Para(style: Style, text: string) | Spacer

  /** What a line adds to the story, given the line already stripped. The tests run in the
      fixed order "# ", "## ", "### ", non-empty; the first that matches wins, and the
      spacer follows whatever matched. */
  function ClassifyText(t: string): (c: seq<Elem>)
    ensures 1 <= |c| <= 2
    ensures c[|c| - 1] == Spacer
    ensures |c| == 2 <==> t != []
    ensures |c| == 2 ==> c[0].Para?
  {
    if StartsWith(t, "# ") then [Para(Heading1, t[2..]), Spacer]
    else if StartsWith(t, "## ") then [Para(Heading2, t[3..]), Spacer]
    else if StartsWith(t, "### ") then [Para(Heading3, t[4..]), Spacer]
    else if t != [] then [Para(Normal, t), Spacer]
    else [Spacer]
  }

  /** What one line of the file adds to the story: at most one paragraph, then one spacer,
      with a paragraph exactly when the line is not blank. */
  function ClassifyLine(line: string): (c: seq<Elem>)
    ensures 1 <= |c| <= 2
    ensures c[|c| - 1] == Spacer
    ensures |c| == 2 <==> !AllSpace(line)
    ensures |c| == 2 ==> c[0].Para?
  {
    StripSpec(line);
    ClassifyText(Strip(line))
  }

  /** `f` applied to each element of `xs`, the results concatenated in order. */
  function FlatMap<T, U>(f: T -> seq<U>, xs: seq<T>): seq<U>
  {
    if xs == [] then [] else f(xs[0]) + FlatMap(f, xs[1..])
  }

  /** The story built from the lines of the file, one line's contribution after another. */
  function Story(lines: seq<string>): seq<Elem>
  {
    FlatMap(ClassifyLine, lines)
  }

  /** The loop of the fallback path, appending to a growing story as it reads each line. */
  method BuildStory(lines: seq<string>) returns (story: seq<Elem>)
    ensures story == Story(lines)
  {
    story := [];
    var i := 0;
    while i < |lines|
      invariant 0 <= i <= |lines|
      invariant story == Story(lines[..i])
    {
      ghost var before := story;
      var line := Strip(lines[i]);
      if StartsWith(line, "# ") {
        story := story + [Para(Heading1, line[2..])];
      } else if StartsWith(line, "## ") {
        story := story + [Para(Heading2, line[3..])];
      } else if StartsWith(line, "### ") {
        story := story + [Para(Heading3, line[4..])];
      } else if line != [] {
        story := story + [Para(Normal, line)];
      }
      story := story + [Spacer];
      assert story == before + ClassifyLine(lines[i]);
      StoryExtend(lines, i);
      i := i + 1;
    }
    assert lines[..i] == lines;
  }

  // ----- Reference grammar of heading lines -----

  /** `n` hash marks. */
  function Hashes(n: nat): (h: string)
    ensures |h| == n
    ensures forall k :: 0 <= k < n ==> h[k] == '#'
  {
    seq(n, _ => '#')
  }

  /** The style of a heading of level 1, 2 or 3. */
  function LevelStyle(n: nat): Style
    requires 1 <= n <= 3
  {
    if n == 1 then Heading1 else if n == 2 then Heading2 else Heading3
  }

  /** A stripped line of level `n` with title `title` is "#"*n, a space, and the title. */
  predicate IsHeading(t: string, n: nat, title: string) {
    1 <= n <= 3 && t == Hashes(n) + " " + title
  }

  /** The three heading markers never overlap: a line has at most one level and one title. */
  lemma HeadingsExclusive(t: string, n: nat, a: string, m: nat, b: string)
    requires IsHeading(t, n, a) && IsHeading(t, m, b)
    ensures n == m && a == b
  {
    assert t[n] == ' ' && t[m] == ' ';
    assert a == t[n + 1..];
    assert b == t[m + 1..];
  }

  /** A stripped line becomes a heading of level `n` titled `title` exactly when it is `n`
      hash marks, one space and that title. */
  lemma HeadingIff(t: string, n: nat, title: string)
    requires 1 <= n <= 3
    ensures ClassifyText(t) == [Para(LevelStyle(n), title), Spacer] <==> IsHeading(t, n, title)
  {
    if ClassifyText(t) == [Para(LevelStyle(n), title), Spacer] {
      assert t == t[..n + 1] + t[n + 1..];
    }
    if IsHeading(t, n, title) {
      assert t[..n + 1] == Hashes(n) + " ";
      assert t[n + 1..] == title;
      assert n >= 2 ==> t[1] == '#';
      assert n == 3 ==> t[2] == '#';
    }
  }

  /** A stripped line becomes a Normal paragraph carrying the whole line exactly when it is
      non-empty and starts with none of the three heading markers. Any other marker, such as
      "- ", "* ", "1. " or "**", is kept as part of the text. */
  lemma NormalIff(t: string)
    ensures ClassifyText(t) == [Para(Normal, t), Spacer]
        <==> (t != [] && forall n :: 1 <= n <= 3 ==> !StartsWith(t, Hashes(n) + " "))
  {
    assert Hashes(1) + " " == "# ";
    assert Hashes(2) + " " == "## ";
    assert Hashes(3) + " " == "### ";
  }

  /** A stripped line not starting with '#' is a Normal paragraph. */
  lemma UnmarkedIsNormal(t: string)
    requires t != [] && t[0] != '#'
    ensures ClassifyText(t) == [Para(Normal, t), Spacer]
  {
  }

  /** Four or more '#' at the front is no heading: the line is a Normal paragraph. */
  lemma DeepHashesAreNormal(t: string)
    requires StartsWith(t, "####")
    ensures ClassifyText(t) == [Para(Normal, t), Spacer]
  {
    assert t[1] == t[..4][1] && t[2] == t[..4][2] && t[3] == t[..4][3];
    assert t[..2][1] == t[1] && t[..3][2] == t[2] && t[..4][3] == t[3];
  }

  /** A run of one to three '#' followed by anything but a space or another '#' ("#",
      "#x", "##x", "###x") is no heading: the line is a Normal paragraph. */
  lemma GluedHashesAreNormal(t: string, n: nat)
    requires 1 <= n <= 3 && n <= |t| && t[..n] == Hashes(n)
    requires n < |t| ==> t[n] != '#' && t[n] != ' '
    ensures ClassifyText(t) == [Para(Normal, t), Spacer]
  {
    forall k | 0 <= k < n ensures t[k] == '#' { assert t[k] == t[..n][k]; }
    assert |t| >= 2 ==> t[..2][1] == t[1];
    assert |t| >= 3 ==> t[..3][1] == t[1] && t[..3][2] == t[2];
    assert |t| >= 4 ==> t[..4][1] == t[1] && t[..4][2] == t[2] && t[..4][3] == t[3];
  }

  /** A line adds only a spacer exactly when it is blank after stripping. */
  lemma BlankIff(line: string)
    ensures ClassifyLine(line) == [Spacer] <==> AllSpace(line)
  {
  }

  /** A heading's text is a non-empty proper suffix of the stripped line and never ends
      in whitespace. */
  lemma HeadingText(line: string)
    requires ClassifyLine(line)[0].Para? && ClassifyLine(line)[0].style != Normal
    ensures var t, x := Strip(line), ClassifyLine(line)[0].text;
      && 0 < |x| < |t|
      && x == t[|t| - |x|..]
      && !IsSpace(x[|x| - 1])
  {
  }

  // ----- Shape of the story -----

  lemma {:induction false} FlatMapAppend<T, U>(f: T -> seq<U>, a: seq<T>, b: seq<T>)
    ensures FlatMap(f, a + b) == FlatMap(f, a) + FlatMap(f, b)
    decreases |a|
  {
    if a == [] {
      assert a + b == b;
    } else {
      assert (a + b)[1..] == a[1..] + b;
      FlatMapAppend(f, a[1..], b);
    }
  }

  /** The story of consecutive runs of lines is the concatenation of their stories. */
  lemma StoryAppend(a: seq<string>, b: seq<string>)
    ensures Story(a + b) == Story(a) + Story(b)
  {
    FlatMapAppend(ClassifyLine, a, b);
  }

  /** Reading one more line extends the story by that line's contribution. */
  lemma StoryExtend(lines: seq<string>, i: nat)
    requires i < |lines|
    ensures Story(lines[..i + 1]) == Story(lines[..i]) + ClassifyLine(lines[i])
  {
    assert lines[..i + 1] == lines[..i] + [lines[i]];
    FlatMapAppend(ClassifyLine, lines[..i], [lines[i]]);
    assert FlatMap(ClassifyLine, [lines[i]]) == ClassifyLine(lines[i]) + FlatMap(ClassifyLine, []);
  }

  /** Order preservation: the story is the stories of the lines before line `i`, then line
      `i`'s own contribution, then the stories of the lines after it. */
  lemma StoryAt(lines: seq<string>, i: nat)
    requires i < |lines|
    ensures Story(lines) == Story(lines[..i]) + ClassifyLine(lines[i]) + Story(lines[i + 1..])
  {
    var pre, post := lines[..i], lines[i..];
    assert lines == pre + post;
    FlatMapAppend(ClassifyLine, pre, post);
    assert post[0] == lines[i] && post[1..] == lines[i + 1..];
  }

  /** Number of spacers in a story. */
  function Spacers(story: seq<Elem>): nat
  {
    if story == [] then 0 else (if story[0].Spacer? then 1 else 0) + Spacers(story[1..])
  }

  /** Number of paragraphs in a story. */
  function Paragraphs(story: seq<Elem>): nat
  {
    if story == [] then 0 else (if story[0].Para? then 1 else 0) + Paragraphs(story[1..])
  }

  /** Number of lines that are not blank after stripping. */
  function NonBlank(lines: seq<string>): nat
  {
    if lines == [] then 0 else (if Strip(lines[0]) != [] then 1 else 0) + NonBlank(lines[1..])
  }

  lemma {:induction false} CountsAppend(a: seq<Elem>, b: seq<Elem>)
    ensures Spacers(a + b) == Spacers(a) + Spacers(b)
    ensures Paragraphs(a + b) == Paragraphs(a) + Paragraphs(b)
    decreases |a|
  {
    if a == [] {
      assert a + b == b;
    } else {
      assert (a + b)[1..] == a[1..] + b;
      CountsAppend(a[1..], b);
    }
  }

  /** One spacer per line of the file, blank or not; one paragraph per non-blank line. */
  lemma {:induction false} StoryCounts(lines: seq<string>)
    ensures Spacers(Story(lines)) == |lines|
    ensures Paragraphs(Story(lines)) == NonBlank(lines)
    decreases |lines|
  {
    if lines != [] {
      var c := ClassifyLine(lines[0]);
      CountsAppend(c, Story(lines[1..]));
      StoryCounts(lines[1..]);
      if |c| == 2 {
        assert c[1..][1..] == [];
      }
    }
  }

  // ----- Content completeness: the story gives back every stripped line -----

  /** The lines of the file, each stripped. */
  function StripAll(lines: seq<string>): (r: seq<string>)
    ensures |r| == |lines|
    ensures forall k :: 0 <= k < |lines| ==> r[k] == Strip(lines[k])
  {
    seq(|lines|, k requires 0 <= k < |lines| => Strip(lines[k]))
  }

  /** The stripped line a paragraph came from: its marker put back in front of its text. */
  function Restore(style: Style, text: string): string
  {
    match style
    case Heading1 => "# " + text
    case Heading2 => "## " + text
    case Heading3 => "### " + text
    case Normal => text
  }

  /** Reads a story back into the stripped lines it was built from: a spacer alone is a
      blank line, a paragraph followed by a spacer is the restored line, anything else is
      not the shape of a story. */
  function Unparse(story: seq<Elem>): (r: Option<seq<string>>)
    ensures r.Some? ==> |r.value| == Spacers(story)
    decreases |story|
  {
    if story == [] then Some([])
    else if story[0].Spacer? then
      match Unparse(story[1..])
      case Some(ls) => Some([""] + ls)
      case None => None
    else if |story| >= 2 && story[1].Spacer? then
      match Unparse(story[2..])
      case Some(ls) =>
        assert story[1..][1..] == story[2..];
        Some([Restore(story[0].style, story[0].text)] + ls)
      case None => None
    else None
  }

  /** A line's contribution, read back, is the stripped line. */
  lemma ClassifyRestores(line: string, rest: seq<Elem>, ls: seq<string>)
    requires Unparse(rest) == Some(ls)
    ensures Unparse(ClassifyLine(line) + rest) == Some([Strip(line)] + ls)
  {
    var t := Strip(line);
    var c := ClassifyLine(line);
    var s := c + rest;
    if |c| == 1 {
      assert s[1..] == rest;
    } else {
      assert s[1] == Spacer;
      assert s[2..] == rest;
      if StartsWith(t, "# ") {
        assert t == t[..2] + t[2..];
      } else if StartsWith(t, "## ") {
        assert t == t[..3] + t[3..];
      } else if StartsWith(t, "### ") {
        assert t == t[..4] + t[4..];
      }
    }
  }

  /** Content completeness: reading the story back gives every line of the file, stripped,
      in order. Only the stripped whitespace is lost. */
  lemma {:induction false} StoryRoundTrip(lines: seq<string>)
    ensures Unparse(Story(lines)) == Some(StripAll(lines))
    decreases |lines|
  {
    if lines != [] {
      StoryRoundTrip(lines[1..]);
      ClassifyRestores(lines[0], Story(lines[1..]), StripAll(lines[1..]));
      assert StripAll(lines) == [Strip(lines[0])] + StripAll(lines[1..]);
    }
  }

  /** Two files give the same story exactly when their lines agree after stripping. */
  lemma StoryInjective(a: seq<string>, b: seq<string>)
    ensures Story(a) == Story(b) <==> StripAll(a) == StripAll(b)
  {
    StoryRoundTrip(a);
    StoryRoundTrip(b);
    if StripAll(a) == StripAll(b) {
      StoryOfStripped(a);
      StoryOfStripped(b);
    }
  }

  /** Stripping the lines first does not change the story. */
  lemma {:induction false} StoryOfStripped(lines: seq<string>)
    ensures Story(StripAll(lines)) == Story(lines)
    decreases |lines|
  {
    if lines != [] {
      StripIdempotent(lines[0]);
      assert StripAll(lines)[1..] == StripAll(lines[1..]);
      StoryOfStripped(lines[1..]);
    }
  }
}

=== FILE: text.dfy ===
/**
 Python string primitives used by the line classifier: `str.strip()` with no
 argument and `str.startswith(prefix)`.
 */
module Text {

  /** The code points Python's `str.isspace` accepts, which are the ones `str.strip()`
      removes: tab, line feed, vertical tab, form feed, carriage return, the four
      information separators 0x1C-0x1F, space, NEL, no-break space, and the Unicode
      space separators and line/paragraph separators. */
  predicate IsSpace(c: char) {
    || c == ' '
    || ('\t' <= c <= '\r')
    || ('\U{1C}' <= c <= '\U{1F}')
    || c == '\U{85}'
    || c == '\U{A0}'
    || c == '\U{1680}'
    || ('\U{2000}' <= c <= '\U{200A}')
    || c == '\U{2028}'
    || c == '\U{2029}'
    || c == '\U{202F}'
    || c == '\U{205F}'
    || c == '\U{3000}'
  }

  /** Every character of `s` in positions `lo` up to (not including) `hi` is whitespace. */
  predicate SpaceBetween(s: string, lo: int, hi: int) {
    forall k :: lo <= k < hi && 0 <= k < |s| ==> IsSpace(s[k])
  }

  predicate AllSpace(s: string) {
    SpaceBetween(s, 0, |s|)
  }

  /** A string that `strip` leaves alone: empty, or starting and ending with a non-space. */
  predicate IsStripped(s: string) {
    s == [] || (!IsSpace(s[0]) && !IsSpace(s[|s| - 1]))
  }

  /** Python's `s.startswith(p)`. */
  predicate StartsWith(s: string, p: string) {
    |p| <= |s| && s[..|p|] == p
  }

  /** The scan from the left: the first position at or after `i` holding a non-space,
      or `|s|` when there is none. */
  function Left(s: string, i: nat): (n: nat)
    requires i <= |s|
    ensures i <= n <= |s|
    ensures SpaceBetween(s, i, n)
    ensures n < |s| ==> !IsSpace(s[n])
    decreases |s| - i
  {
    if i == |s| || !IsSpace(s[i]) then i else Left(s, i + 1)
  }

  /** The scan from the right, which never passes `i`: the end of the last non-space
      before `j`, or `i` when `s[i..j]` is all whitespace. */
  function Right(s: string, i: nat, j: nat): (n: nat)
    requires i <= j <= |s|
    ensures i <= n <= j
    ensures SpaceBetween(s, n, j)
    ensures n > i ==> !IsSpace(s[n - 1])
    decreases j
  {
    if j == i || !IsSpace(s[j - 1]) then j else Right(s, i, j - 1)
  }

  /** A run of spaces from `i` to `k` ended by a non-space (or the end) is what `Left` skips. */
  lemma LeftExact(s: string, i: nat, k: nat)
    requires i <= k <= |s| && SpaceBetween(s, i, k)
    requires k < |s| ==> !IsSpace(s[k])
    ensures Left(s, i) == k
  {
  }

  /** A run of spaces from `k` to `j` preceded by a non-space (or `i`) is what `Right` skips. */
  lemma RightExact(s: string, i: nat, j: nat, k: nat)
    requires i <= k <= j <= |s| && SpaceBetween(s, k, j)
    requires k > i ==> !IsSpace(s[k - 1])
    ensures Right(s, i, j) == k
  {
  }

  /** Python's `s.strip()`: `s` without its leading and trailing whitespace. The scans
      run from the left first, then from the right down to where the left scan stopped.
      `StripSpec` states what the result is in terms of `s`. */
  function Strip(s: string): (r: string)
    ensures |r| <= |s|
  {
    var i := Left(s, 0);
    var j := Right(s, i, |s|);
    s[i..j]
  }

  /** The result of `strip` is the stretch of `s` starting at its first non-space, with only
      whitespace before and after it; it is empty exactly when `s` is all whitespace. */
  lemma StripSpec(s: string)
    ensures IsStripped(Strip(s))
    ensures Strip(s) == [] <==> AllSpace(s)
    ensures Left(s, 0) + |Strip(s)| <= |s|
    ensures Strip(s) == s[Left(s, 0)..Left(s, 0) + |Strip(s)|]
    ensures SpaceBetween(s, 0, Left(s, 0))
    ensures SpaceBetween(s, Left(s, 0) + |Strip(s)|, |s|)
  {
  }

  /** `strip` returns the middle of ANY decomposition into space, stripped text and space:
      the result does not depend on how the whitespace was split around the text. */
  lemma StripUnique(pre: string, mid: string, post: string)
    requires AllSpace(pre) && AllSpace(post) && IsStripped(mid)
    ensures Strip(pre + mid + post) == mid
  {
    var s := pre + mid + post;
    if mid == [] {
      assert AllSpace(s) by {
        forall k | 0 <= k < |s| ensures IsSpace(s[k]) {
          if k < |pre| { assert s[k] == pre[k]; } else { assert s[k] == post[k - |pre|]; }
        }
      }
    } else {
      var i, j := |pre|, |pre| + |mid|;
      assert SpaceBetween(s, 0, i) by {
        forall k | 0 <= k < i ensures IsSpace(s[k]) { assert s[k] == pre[k]; }
      }
      assert SpaceBetween(s, j, |s|) by {
        forall k | j <= k < |s| ensures IsSpace(s[k]) { assert s[k] == post[k - j]; }
      }
      assert s[i] == mid[0] && s[j - 1] == mid[|mid| - 1];
      LeftExact(s, 0, i);
      RightExact(s, i, |s|, j);
      assert s[i..j] == mid;
    }
  }

  /** Stripping twice is stripping once. */
  lemma StripIdempotent(s: string)
    ensures Strip(Strip(s)) == Strip(s)
  {
  }

  /** `s` is its leading whitespace, its stripped text and its trailing whitespace. */
  lemma StripDecompose(s: string) returns (head: string, tail: string)
    ensures AllSpace(head) && AllSpace(tail) && IsStripped(Strip(s))
    ensures s == head + Strip(s) + tail
  {
    var i := Left(s, 0);
    var r := Strip(s);
    StripSpec(s);
    assert i + |r| <= |s| && r == s[i..i + |r|];
    head, tail := s[..i], s[i + |r|..];
    assert AllSpace(head) by {
      forall k | 0 <= k < |head| ensures IsSpace(head[k]) { assert head[k] == s[k]; }
    }
    assert AllSpace(tail) by {
      forall k | 0 <= k < |tail| ensures IsSpace(tail[k]) { assert tail[k] == s[i + |r| + k]; }
    }
    assert s == head + r + tail by {
      assert s[..i] + s[i..i + |r|] == s[..i + |r|];
      assert s[..i + |r|] + s[i + |r|..] == s;
    }
  }

  /** Whitespace added around a string does not change what `strip` returns. */
  lemma StripIgnoresPadding(pre: string, s: string, post: string)
    requires AllSpace(pre) && AllSpace(post)
    ensures Strip(pre + s + post) == Strip(s)
  {
    var head, tail := StripDecompose(s);
    var r := Strip(s);
    Regroup(pre, head, r, tail, post);
    AllSpaceAppend(pre, head);
    AllSpaceAppend(tail, post);
    StripUnique(pre + head, r, tail + post);
  }

  lemma Regroup(pre: string, head: string, r: string, tail: string, post: string)
    ensures pre + (head + r + tail) + post == (pre + head) + r + (tail + post)
  {
  }

  /** Concatenating whitespace gives whitespace. */
  lemma AllSpaceAppend(a: string, b: string)
    requires AllSpace(a) && AllSpace(b)
    ensures AllSpace(a + b)
  {
  }
}

=== FILE: types.dfy ===
/** Small shared value types: an optional value, and the bytes of a rendered PDF. */
module Types {

  /** A value that may be absent; `None` stands for a Python `None` return or a raised exception. */
  datatype Option<+T> = None | Some(value: T)

  newtype byte = x: int | 0 <= x < 256

  /** The contents of a rendered PDF document. */
  type Bytes = seq<byte>
}
